=== FILE: README.md ===
# Markdown editor core, modelled in Dafny

This project models the rules of the browser Markdown editor in
`script.js`. It keeps only the parts that decide what the editor shows and
stores, and leaves out how it draws them:

- **Text statistics.** These are recomputed on every render:
  - the line-number gutter beside the editing surface
  - the word count (ideographs plus ASCII letter runs)
  - the line count
  - the cursor's line and column, taken from `selectionStart`
- **Export file name.** This is the base name used for Markdown, HTML and PDF exports (`getFilename`).
- **Themes.** This covers:
  - the saved theme at start-up
  - the toolbar's four-theme cycle
  - the display names of the themes
- **Panel width.** This is the clamp applied when the divider is dragged or when Ctrl/Cmd+ArrowLeft/ArrowRight is pressed.
- **Guide mode.** This covers:
  - how the help button swaps the user's content for the guide and back
  - how typing or importing ends guide mode
  - the autosave gate of `renderMarkdown`
- **Toolbar dropdowns.** At most one is open at a time.
- **Background image.** This covers the checks the upload makes.

Text is a sequence of UTF-16 code units (`Strings.CodeUnit`), which is how
JavaScript strings index it. So `length`, `substring`, `selectionStart` and
the regular-expression classes all act on the same units as in the browser.
The `Strings` module also holds the JavaScript string primitives these
rules use, each with its own contract:

- `split('\n')` and its inverse `join('\n')`
- `trim()` over the whitespace of `\s`
- the decimal numeral `${n}`

The model follows the code. The editor offers no synchronised scrolling
between the editing surface and the preview. The only scroll handling in
`script.js` copies the editor's `scrollTop` onto the line-number gutter.
That is a DOM effect and is not modelled.

Modules: `Common` (Option, Result), `Strings`, `TextStats`, `Filename`,
`Theme`, `PanelLayout`, `Guide`, `Dropdown`, `Background`.

## Model

| member | source | states |
|---|---|---|
| Strings.Split | script.js:113-114 | `split('\n')` gives one more piece than there are line feeds, and no piece contains a line feed |
| Strings.JoinSplit | script.js:113 | joining the pieces of a split with line feeds gives back the text, so the split loses nothing |
| Strings.SplitJoin | script.js:113 | splitting a join of line-feed-free pieces gives back those pieces |
| Strings.SplitSnoc | script.js:146-148 | one more unit at the end of the text either opens a new empty last line (a line feed) or extends the last line |
| Strings.LastLineIsTail | script.js:148 | the piece `pop()` returns is the tail of the text after its last line feed, or the whole text when there is none |
| Strings.Trim | script.js:230-231 | `trim()` removes whitespace, and only whitespace, from both ends; the result has no whitespace at either end and a text without any is left unchanged |
| Strings.TrimKeeps | script.js:231 | every unit of a trimmed text comes from the text, so any property of all units survives trimming |
| Strings.Decimal | script.js:118 | `${i}` is a nonempty string of decimal digits; only the numeral of 0 starts with `0`, and a numeral of more than one digit never does |
| Strings.DecimalRoundTrip | script.js:118 | reading the numeral `${n}` back as a decimal number gives `n` |
| TextStats.LineNumbers | script.js:112-121 | the gutter, read line by line, is the numerals 1..n each followed by a line feed, where n is the content's line count; empty content gives `1` and one line feed |
| TextStats.GutterStep | script.js:117-119 | each loop round adds exactly the next numeral as a new gutter line |
| TextStats.CountWords | script.js:137-140 | the loops matching `/[一-龥]/g` and the greedy `/[a-zA-Z]+/g` count the ideographs plus the positions where a maximal ASCII letter run begins |
| TextStats.WordCountBounded | script.js:137-140 | the word count never exceeds the text's length in code units |
| TextStats.WordCountSnoc | script.js:137-140 | one more unit adds one word for an ideograph or for a letter that starts a new run, and nothing for digits, punctuation, whitespace or other scripts |
| TextStats.LineCount | script.js:143 | the line count is one more than the number of line feeds |
| TextStats.CursorAt | script.js:145-149 | the cursor line is one more than the line feeds before `selectionStart` and lies within the line count; the column is one more than the units since the last of those line feeds, which contain no line feed |
| TextStats.UpdateStats | script.js:134-156 | the status bar shows the word count (never above the length), the line count and the cursor, whose line never exceeds the line count |
| Filename.Sanitize | script.js:231 | deleting every unit outside `[a-zA-Z0-9一-龥\s-]` leaves only kept units, each kept unit as many times as it occurred, and a text made only of kept units unchanged |
| Filename.SanitizeAppend | script.js:231 | the deletion works unit by unit and keeps the remaining units in their order: sanitising a concatenation is the concatenation of the sanitised parts |
| Filename.SanitizedLine | script.js:230-231 | a sanitised, trimmed first line is still a single line of kept units |
| Filename.DefaultNameWellFormed | script.js:232 | the fallback `markdown-export` is nonempty, trimmed, single-line and made of kept units |
| Filename.GetFilename | script.js:229-233 | the name is never empty, is made only of kept units, has no whitespace at either end and no line feed; it is the trimmed, sanitised first line of the trimmed content when that is nonempty, and `markdown-export` otherwise |
| Filename.FilenameIdempotent | script.js:229-233 | feeding a produced name back as content gives the same name |
| Theme.IndexOf | script.js:468-469 | `indexOf` gives the first position holding the theme, or -1 exactly when the theme is not listed |
| Theme.NextTheme | script.js:467-475 | the toggle always selects a listed theme: light→dark→blue→cyberpunk→light, and light for any unlisted key |
| Theme.ThemeCycle | script.js:467-470 | four presses return to the starting theme, and fewer never do |
| Theme.UnknownThemeEntersCycle | script.js:468-470 | from an unlisted key the toggle enters the cycle at light, then dark |
| Theme.ThemeName | script.js:486-494 | the display name is `未知` exactly for keys that are not themes |
| Theme.ThemeNamesDistinct | script.js:487-492 | different themes have different display names |
| Theme.InitialTheme | script.js:71-76 | the start-up theme is the saved one when it is nonempty, and light when nothing (or an empty string) is saved |
| PanelLayout.ClampWidth | script.js:636-639 | the width is at least 200, at most container-200 when that range is nonempty, exactly 200 when it is empty, and the requested width when it is already in range |
| PanelLayout.ClampIsNearest | script.js:639 | the clamped width is the allowed width nearest the requested one |
| PanelLayout.ClampMonotone | script.js:639 | moving the pointer further right never gives a narrower editor panel |
| PanelLayout.StartDrag | script.js:589-592 | a drag starts from the pointer's position and the editor panel's current width |
| PanelLayout.EndDrag | script.js:670-673 | after the drag ends, pointer moves no longer resize; the start point and the cached width are kept |
| PanelLayout.DragWidth | script.js:616-639 | a move sets a width exactly while dragging, namely the start width moved by the pointer's travel, clamped into [200, cachedWidth-200]: that width itself when it is in range, and otherwise the clamp of it |
| PanelLayout.PointerMove | script.js:616-649 | a move during a drag sets the clamped width and then re-reads the container width into the cache; outside a drag it changes nothing |
| PanelLayout.MovesMeasureFromStart | script.js:635-649 | after any number of moves, the next width is still measured from where the drag started, clamped against the container width read after the previous move |
| PanelLayout.ContainerResized | script.js:554-558 | the observer's callback sets the cached container width to the observed width at any time, during a drag or not, and changes nothing else |
| PanelLayout.ResizeBetweenDrags | script.js:554-558 | after a container resize between two drags, the next drag's first move is clamped against the observed width |
| PanelLayout.NoResizeAfterEnd | script.js:616-617 | once the drag has ended, a pointer move sets no width and leaves the state alone |
| PanelLayout.ResizeDelta | script.js:724-739 | the shortcut asks for a change only with Ctrl or Cmd held and ArrowLeft or ArrowRight pressed: 50 pixels with Shift and 10 without, narrower for left and wider for right |
| PanelLayout.KeyboardResize | script.js:724-745 | a handled key press gives the current width moved by the key's step (±10, or ±50 with Shift), clamped into [200, innerWidth-200], and exactly the moved width when that is in range; any other key gives none |
| PanelLayout.KeyboardResizeDirection | script.js:742-745 | from a width in range, ArrowLeft never widens and ArrowRight never narrows the panel, and neither moves it by more than one step |
| Guide.ToggleGuide | script.js:429-444 | the help button flips guide mode; entering stashes the content and shows the guide, leaving restores the stash; no autosave is asked for |
| Guide.ReplaceContent | script.js:238-244 | typing (and likewise importing, lines 271-276) makes the new text the content and ends guide mode without restoring the stash; autosave is scheduled exactly when it is enabled |
| Guide.Clear | script.js:447-453 | only nonblank content with confirmation is emptied, and the guide flag stays as it was; an autosave is then scheduled exactly when it is enabled and the guide is not shown; otherwise nothing changes |
| Guide.Step | script.js:102 | no user action ever schedules an autosave while the guide is on screen or when autosave is disabled |
| Guide.GuideRoundTrip | script.js:429-444 | opening and closing the guide restores the user's content exactly |
| Guide.ViewingKeepsStash | script.js:447-459 | clearing and refreshing keep the guide open and the stash intact |
| Guide.GuideRoundTripWhileViewing | script.js:429-459 | however many clears and refreshes happen while the guide is open, closing it restores the content the user had |
| Guide.TypingInGuideReplacesStash | script.js:238-244 | typing in the guide ends guide mode with the edited guide as content, and the next press of the help button stashes that text |
| Dropdown.CloseAll | script.js:517-521 | every dropdown menu is hidden and nothing else changes |
| Dropdown.Toggle | script.js:508-515 | no other dropdown is left open, and the clicked one ends up open exactly when it was closed |
| Dropdown.ToggleTwice | script.js:508-515 | two clicks on the same toggle close every dropdown if it was closed, and leave it alone open if it was open |
| Dropdown.ToggleKeepsAtMostOne | script.js:508-515 | after any sequence of toggle clicks, at most one dropdown is open |
| Dropdown.DocumentClick | script.js:524-528 | a click outside every dropdown hides every dropdown menu and changes nothing else (the set of dropdowns, and whether any other element is shown, stay as they were); a click inside one changes nothing |
| Background.CheckImage | script.js:1449-1458 | a file is accepted exactly when it exists, its type starts with `image/` and it is at most 5 MiB; missing or non-image files are rejected as not an image |
| Background.AfterUpload | script.js:1449-1472 | the setting becomes the read data URL only for an accepted file that was read successfully, and stays as it was otherwise |
| Background.RemoveImage | script.js:1476-1480 | after removal there is no background image |

## Left out

- The DOM is not modelled: element classes, styles, icons, `innerHTML`, notifications, the `confirm` dialog and focus. The user's answer to `confirm` is a parameter of `Guide.Clear`.
- `localStorage` is not modelled. The saved theme is a parameter of `Theme.InitialTheme`, and saving the settings JSON is left out.
- `FileReader` is not modelled. The imported text and the background data URL are parameters; a failed read is `None`.
- Blob downloads, `html2pdf` and the `marked` renderer are not modelled: they are foreign code or I/O.
- Timers are not modelled: the autosave delay, notification timeouts, and the 60 fps throttle and `requestAnimationFrame` of the divider drag. `PanelLayout.PointerMove` models a move that gets past the throttle; a dropped move changes nothing.
- The `ResizeObserver` callback itself is not modelled as an event source. Its update to the cached container width is `PanelLayout.ContainerResized`, which applies at any time. The re-read at the end of a layout update is the `containerWidth` parameter of `PanelLayout.PointerMove`.
- The percentage widths applied to the panels and the keyboard notification's rounded percentage are left out, because they are floating point.
- PanelLayout.ClampWidth: widths and pointer positions are integers here. `offsetWidth` is an integer in the browser, but `clientX` and the `ResizeObserver` width `contentRect.width` (line 556), which feeds the cached container width, may be fractional.
- `endDrag` removes listeners created with fresh `bind` calls, so it removes none. This is DOM bookkeeping and is not modelled.
- Theme.ThemeName: it looks the key up in a plain object, so inherited property names such as `constructor` give a truthy non-string. Only string results are modelled.
- `toLocaleString` formatting of the counts in the status bar is left out: only the numbers are modelled.
- Strings.IsWhiteSpace: `\s` and `trim()` are modelled over single UTF-16 code units. The whitespace set is the ECMAScript one, and all of it lies in the Basic Multilingual Plane.
- Static text is left out: the guide text (a parameter of `Guide.ToggleGuide`), the welcome text and the generated HTML page.
- Guide.Step: it promises only that no action schedules an autosave while the guide is shown. The one-second autosave timer (lines 159-166) is not modelled. A save scheduled by typing just before the help button is pressed is not cancelled when the guide opens (lines 429-444). It then fires while the guide is on screen and stores the guide text as the saved content (line 172). So the model does not promise that the guide text is never saved.
- Closing the dropdowns after an export is a `Dropdown.CloseAll` call that follows I/O and is not modelled separately. The Markdown and HTML exports close them only on success (lines 308, 347). The PDF export closes them in a `finally` block (lines 387-391), so it also does so when `html2pdf` fails, but not on its early return when `html2pdf` is missing (lines 356-359).
- Guide.ReplaceContent: the import handler ignores an empty file selection and a failed read, leaving the editor alone. Only a successful read is modelled as an `Imported` event.

=== FILE: background.dfy ===
/**
  The settings panel's background image: which files the upload accepts
  and what the setting holds afterwards.
*/
module Background {
  import opened Common

  /** The largest accepted image, 5 MiB. */
  const MaxImageBytes: nat := 5 * 1024 * 1024

  /** The parts of a chosen `File` the check reads: its MIME type and its size in bytes. */
  datatype ImageFile = ImageFile(mimeType: string, size: nat)

  /** Why an upload is refused, in the order the checks are made. */
  datatype Rejection = NotAnImage | TooLarge

  /**
    The checks of `handleBackgroundImageUpload`: a missing file or one whose
    type does not start with `image/` is not an image; an image over 5 MiB
    is too large; anything else is accepted.
  */
  function CheckImage(file: Option<ImageFile>): (r: Result<ImageFile, Rejection>)
    ensures r.Success? <==>
      file.Some? && |file.value.mimeType| >= 6 && file.value.mimeType[..6] == "image/"
      && file.value.size <= 5242880
    ensures r.Success? ==> r.value == file.value
    ensures r == Failure(NotAnImage) <==>
      file.None? || |file.value.mimeType| < 6 || file.value.mimeType[..6] != "image/"
  {
    match file
    case None => Failure(NotAnImage)
    case Some(f) =>
      if !("image/" <= f.mimeType) then Failure(NotAnImage)
      else if f.size > MaxImageBytes then Failure(TooLarge)
      else Success(f)
  }

  /**
    The background image setting after an upload attempt: the data URL the
    reader produced when the file is accepted and reading succeeds
    (`dataUrl` is None when the reader fails), the previous setting otherwise.
  */
  function AfterUpload(current: Option<string>, file: Option<ImageFile>, dataUrl: Option<string>): (next: Option<string>)
    ensures CheckImage(file).Success? && dataUrl.Some? ==> next == dataUrl
    ensures CheckImage(file).Failure? || dataUrl.None? ==> next == current
  {
    match CheckImage(file)
    case Failure(_) => current
    case Success(_) => if dataUrl.Some? then dataUrl else current
  }

  /** The remove button: no background image. */
  function RemoveImage(current: Option<string>): (next: Option<string>)
    ensures next.None?
  {
    None
  }
}

=== FILE: common.dfy ===
/** Small failure-carrying datatypes shared by the editor model. */
module Common {

  /** A value that may be absent: a missing file, an unset preference. */
  datatype Option<+T> = None | Some(value: T)

  /** The outcome of a check that either accepts a value or names why not. */
  datatype Result<+R, +E> = Success(value: R) | Failure(error: E)
}

=== FILE: dropdown.dfy ===
/**
  The toolbar's dropdown menus. Opening one closes every other; clicking
  the same toggle again closes it. A click outside any dropdown and a
  finished export close them all.
*/
module Dropdown {

  /**
    Which menus carry the `show` class, and which elements are
    `.dropdown-menu` elements, the ones `closeAllDropdowns` reaches.
  */
  datatype Menus<M> = Menus(shown: set<M>, dropdowns: set<M>)

  /** `closeAllDropdowns`: every dropdown menu hidden, nothing else touched. */
  function CloseAll<M(!new)>(s: Menus<M>): (s': Menus<M>)
    ensures s'.dropdowns == s.dropdowns
    ensures forall m :: m in s'.shown <==> m in s.shown && m !in s.dropdowns
  {
    s.(shown := s.shown - s.dropdowns)
  }

  /**
    `toggleDropdown(menu)`: all dropdowns are closed, then `menu` is shown
    if it was hidden before. No other dropdown is left shown, and a
    dropdown `menu` ends up shown exactly when it was hidden.
  */
  function Toggle<M(!new)>(s: Menus<M>, menu: M): (s': Menus<M>)
    ensures s'.dropdowns == s.dropdowns
    ensures forall m :: m in s.dropdowns && m != menu ==> m !in s'.shown
    ensures forall m :: m !in s.dropdowns && m != menu ==> (m in s'.shown <==> m in s.shown)
    ensures menu in s.dropdowns ==> (menu in s'.shown <==> menu !in s.shown)
  {
    var wasVisible := menu in s.shown;
    var closed := CloseAll(s);
    if !wasVisible then closed.(shown := closed.shown + {menu}) else closed
  }

  /**
    Clicking the same dropdown's toggle twice from a state where it is
    hidden leaves no dropdown shown; from a state where it is shown, it
    leaves that dropdown alone shown.
  */
  lemma ToggleTwice<M(!new)>(s: Menus<M>, menu: M)
    requires menu in s.dropdowns
    ensures menu !in s.shown ==> forall m :: m in s.dropdowns ==> m !in Toggle(Toggle(s, menu), menu).shown
    ensures menu in s.shown ==> forall m :: m in s.dropdowns ==> (m in Toggle(Toggle(s, menu), menu).shown <==> m == menu)
  {
  }

  /** The menus after a sequence of toggle clicks. */
  function ToggleAll<M(!new)>(s: Menus<M>, clicks: seq<M>): Menus<M>
    decreases |clicks|
  {
    if |clicks| == 0 then s else ToggleAll(Toggle(s, clicks[0]), clicks[1..])
  }

  /** At most one dropdown menu is shown. */
  ghost predicate AtMostOneShown<M(!new)>(s: Menus<M>)
  {
    forall a, b :: a in s.shown && b in s.shown && a in s.dropdowns && b in s.dropdowns ==> a == b
  }

  /** Whatever sequence of toggles is clicked, at most one dropdown is shown, provided that was so to begin with. */
  lemma {:induction false} ToggleKeepsAtMostOne<M(!new)>(s: Menus<M>, clicks: seq<M>)
    requires AtMostOneShown(s)
    ensures AtMostOneShown(ToggleAll(s, clicks))
    decreases |clicks|
  {
    if |clicks| > 0 {
      var s' := Toggle(s, clicks[0]);
      assert AtMostOneShown(s') by {
        forall a, b | a in s'.shown && b in s'.shown && a in s'.dropdowns && b in s'.dropdowns
          ensures a == b
        {
          assert a == clicks[0] && b == clicks[0];
        }
      }
      ToggleKeepsAtMostOne(s', clicks[1..]);
    }
  }

  /** A document click: outside every `.dropdown` it closes all menus, inside it changes nothing. */
  function DocumentClick<M(!new)>(s: Menus<M>, insideDropdown: bool): (s': Menus<M>)
    ensures insideDropdown ==> s' == s
    ensures !insideDropdown ==> s'.shown !! s.dropdowns && s'.shown <= s.shown
    ensures !insideDropdown ==> s'.dropdowns == s.dropdowns
    ensures !insideDropdown ==> forall m :: m !in s.dropdowns ==> (m in s'.shown <==> m in s.shown)
  {
    if insideDropdown then s else CloseAll(s)
  }
}

=== FILE: filename.dfy ===
/**
  `getFilename`: the base name the Markdown, HTML and PDF exports are saved
  under. It is the first line of the trimmed content with every unit outside
  `[a-zA-Z0-9一-龥\s-]` deleted, trimmed again, or `markdown-export` when
  nothing is left.
*/
module Filename {
  import opened Strings
  import TextStats

  /** A unit the sanitiser keeps: ASCII letter or digit, ideograph U+4E00..U+9FA5, whitespace, hyphen. */
  predicate IsKept(u: CodeUnit)
  {
    TextStats.IsAsciiLetter(u) || IsDigit(u) || TextStats.IsCjk(u) || IsWhiteSpace(u) || u == 0x2D
  }

  /**
    `line.replace(/[^a-zA-Z0-9一-龥\s-]/g, '')`: every unit outside the
    kept class deleted. What is left is only kept units, and every kept unit
    is left as many times as it occurs.
  */
  function Sanitize(t: Text): (r: Text)
    ensures forall k :: 0 <= k < |r| ==> IsKept(r[k])
    ensures forall u :: IsKept(u) ==> multiset(r)[u] == multiset(t)[u]
    ensures (forall k :: 0 <= k < |t| ==> IsKept(t[k])) ==> r == t
    decreases |t|
  {
    if |t| == 0 then []
    else
      assert t == [t[0]] + t[1..];
      (if IsKept(t[0]) then [t[0]] else []) + Sanitize(t[1..])
  }

  /** Sanitising works unit by unit: the kept units stay in their order. */
  lemma {:induction false} SanitizeAppend(a: Text, b: Text)
    ensures Sanitize(a + b) == Sanitize(a) + Sanitize(b)
    decreases |a|
  {
    if |a| == 0 {
      assert a + b == b;
    } else {
      assert (a + b)[0] == a[0];
      assert (a + b)[1..] == a[1..] + b;
      SanitizeAppend(a[1..], b);
    }
  }

  /** The fallback name, "markdown-export". */
  const DefaultName: Text := Units("markdown-export")

  /** The first line of the trimmed content, sanitised and trimmed; possibly empty. */
  function SanitizedFirstLine(content: Text): Text
  {
    Trim(Sanitize(Split(Trim(content))[0]))
  }

  lemma DefaultNameWellFormed()
    ensures |DefaultName| > 0 && IsTrimmed(DefaultName) && LineFeed !in DefaultName
    ensures forall k :: 0 <= k < |DefaultName| ==> IsKept(DefaultName[k])
  {
  }

  /** Sanitising and trimming one line leaves kept units only, still on one line. */
  lemma SanitizedLine(line: Text)
    requires LineFeed !in line
    ensures LineFeed !in Trim(Sanitize(line))
    ensures forall k :: 0 <= k < |Trim(Sanitize(line))| ==> IsKept(Trim(Sanitize(line))[k])
  {
    var sanitized := Sanitize(line);
    assert multiset(line)[LineFeed] == 0;
    forall k | 0 <= k < |sanitized|
      ensures IsKept(sanitized[k]) && sanitized[k] != LineFeed
    {
    }
    TrimKeeps(sanitized, u => IsKept(u) && u != LineFeed);
  }

  /**
    `getFilename`: never empty, made only of kept units, without whitespace
    at either end and on one line; the sanitised first line whenever that is
    not empty, and exactly `markdown-export` when it is.
  */
  function GetFilename(content: Text): (name: Text)
    ensures |name| > 0
    ensures forall k :: 0 <= k < |name| ==> IsKept(name[k])
    ensures IsTrimmed(name)
    ensures LineFeed !in name
    ensures SanitizedFirstLine(content) == [] ==> name == DefaultName
    ensures SanitizedFirstLine(content) != [] ==> IsTrimOf(name, Sanitize(Split(Trim(content))[0]))
  {
    var trimmed := SanitizedFirstLine(content);
    SanitizedLine(Split(Trim(content))[0]);
    DefaultNameWellFormed();
    if |trimmed| > 0 then trimmed else DefaultName
  }

  /** A name that `getFilename` produced comes back unchanged when sanitised again. */
  lemma FilenameIdempotent(content: Text)
    ensures GetFilename(GetFilename(content)) == GetFilename(content)
  {
    var name := GetFilename(content);
    SplitSingle(name);
    assert Split(Trim(name))[0] == name;
    assert Sanitize(name) == name;
  }
}

=== FILE: guide.dfy ===
/**
  The Markdown guide mode and the autosave gate. The help button swaps the
  user's content for the guide text and back again. Typing in, or importing
  over, the guide makes the edited text the content and leaves guide mode
  without restoring anything. `renderMarkdown` schedules an autosave only
  when its caller asks for one, autosave is enabled, and the guide is not on
  screen.
*/
module Guide {
  import opened Strings

  /** The editor state the guide logic reads and writes. */
  datatype Editor = Editor(
    content: Text,          // the editing surface's value
    showingGuide: bool,     // the guide text is on screen
    stashed: Text,          // the content saved when the guide was opened
    autoSaveEnabled: bool)

  /** A new editor state, and whether the render it triggered scheduled an autosave. */
  datatype Outcome = Outcome(editor: Editor, autoSave: bool)

  /** The user actions that touch the guide flag or re-render. */
  datatype Event =
    | HelpButton               // toggle the guide
    | Typed(content: Text)     // an `input` event; `content` is the value after the edit
    | Imported(text: Text)     // a Markdown file read by the import button
    | ClearButton(confirmed: bool)
    | RefreshButton

  /** The autosave gate of `renderMarkdown(shouldSave)`, read after the handler has updated the flag. */
  predicate SchedulesAutoSave(shouldSave: bool, e: Editor)
  {
    shouldSave && e.autoSaveEnabled && !e.showingGuide
  }

  /**
    The help button: entering the guide stashes the content and shows the
    guide text; leaving it puts the stashed content back. Either way the
    render asks for no autosave.
  */
  function ToggleGuide(e: Editor, guideText: Text): (o: Outcome)
    ensures o.editor.showingGuide == !e.showingGuide
    ensures !o.autoSave
    ensures !e.showingGuide ==> o.editor.content == guideText && o.editor.stashed == e.content
    ensures e.showingGuide ==> o.editor.content == e.stashed && o.editor.stashed == e.stashed
    ensures o.editor.autoSaveEnabled == e.autoSaveEnabled
  {
    var showing := !e.showingGuide;
    var e' := if showing then e.(showingGuide := true, stashed := e.content, content := guideText)
              else e.(showingGuide := false, content := e.stashed);
    Outcome(e', SchedulesAutoSave(false, e'))
  }

  /**
    An edit or an import: the new text becomes the content, guide mode ends
    without restoring the stash, and the render asks for an autosave, which
    is scheduled exactly when autosave is enabled.
  */
  function ReplaceContent(e: Editor, text: Text): (o: Outcome)
    ensures o.editor.content == text && !o.editor.showingGuide
    ensures o.editor.stashed == e.stashed && o.editor.autoSaveEnabled == e.autoSaveEnabled
    ensures o.autoSave <==> e.autoSaveEnabled
  {
    var e' := e.(content := text, showingGuide := false);
    Outcome(e', SchedulesAutoSave(true, e'))
  }

  /**
    The clear button: only when the content is not blank and the user
    confirms, the content is emptied and the render asks for an autosave;
    the guide flag is left as it was. Otherwise nothing happens.
  */
  function Clear(e: Editor, confirmed: bool): (o: Outcome)
    ensures |Trim(e.content)| > 0 && confirmed ==>
      o.editor == e.(content := []) && (o.autoSave <==> e.autoSaveEnabled && !e.showingGuide)
    ensures |Trim(e.content)| == 0 || !confirmed ==> o == Outcome(e, false)
  {
    if |Trim(e.content)| > 0 && confirmed then
      var e' := e.(content := []);
      Outcome(e', SchedulesAutoSave(true, e'))
    else Outcome(e, false)
  }

  /** One user action, dispatched to its handler. */
  function Step(e: Editor, ev: Event, guideText: Text): (o: Outcome)
    ensures o.autoSave ==> !o.editor.showingGuide && e.autoSaveEnabled
    ensures o.editor.autoSaveEnabled == e.autoSaveEnabled
  {
    match ev
    case HelpButton => ToggleGuide(e, guideText)
    case Typed(text) => ReplaceContent(e, text)
    case Imported(text) => ReplaceContent(e, text)
    case ClearButton(confirmed) => Clear(e, confirmed)
    case RefreshButton => Outcome(e, SchedulesAutoSave(false, e))
  }

  /** The editor after a sequence of actions. */
  function Run(e: Editor, evs: seq<Event>, guideText: Text): Editor
    decreases |evs|
  {
    if |evs| == 0 then e else Run(Step(e, evs[0], guideText).editor, evs[1..], guideText)
  }

  /** Opening and then closing the guide, with nothing in between, restores the content exactly. */
  lemma GuideRoundTrip(e: Editor, guideText: Text)
    requires !e.showingGuide
    ensures var back := ToggleGuide(ToggleGuide(e, guideText).editor, guideText).editor;
      back.content == e.content && !back.showingGuide && back.autoSaveEnabled == e.autoSaveEnabled
  {
  }

  /** Actions that neither type nor import into the editor. */
  predicate KeepsStash(ev: Event)
  {
    ev.ClearButton? || ev.RefreshButton?
  }

  /** Clearing and refreshing while the guide is open leave the guide open and the stash intact. */
  lemma {:induction false} ViewingKeepsStash(e: Editor, evs: seq<Event>, guideText: Text)
    requires e.showingGuide
    requires forall k :: 0 <= k < |evs| ==> KeepsStash(evs[k])
    ensures Run(e, evs, guideText).showingGuide
    ensures Run(e, evs, guideText).stashed == e.stashed
    decreases |evs|
  {
    if |evs| > 0 {
      ViewingKeepsStash(Step(e, evs[0], guideText).editor, evs[1..], guideText);
    }
  }

  /**
    However long the guide stays open, if nothing is typed or imported,
    closing it gives back the content the user had when opening it.
  */
  lemma GuideRoundTripWhileViewing(e: Editor, evs: seq<Event>, guideText: Text)
    requires !e.showingGuide
    requires forall k :: 0 <= k < |evs| ==> KeepsStash(evs[k])
    ensures var shown := ToggleGuide(e, guideText).editor;
      ToggleGuide(Run(shown, evs, guideText), guideText).editor.content == e.content
  {
    ViewingKeepsStash(ToggleGuide(e, guideText).editor, evs, guideText);
  }

  /**
    Typing while the guide is open ends guide mode with the edited guide as
    content; the next press of the help button stashes that edited text in
    place of what the user had before.
  */
  lemma TypingInGuideReplacesStash(e: Editor, typed: Text, guideText: Text)
    requires e.showingGuide
    ensures var after := ReplaceContent(e, typed).editor;
      && !after.showingGuide && after.content == typed
      && ToggleGuide(after, guideText).editor.stashed == typed
  {
  }
}

=== FILE: panel_layout.dfy ===
/**
  The width of the editor panel, set either by dragging the divider or by
  Ctrl/Cmd+ArrowLeft/ArrowRight. Both clamp the requested width so that
  each panel keeps at least 200 pixels.
*/
module PanelLayout {
  import opened Common

  /** The narrowest either panel may become. */
  const MinPanelWidth: int := 200

  /** Keyboard step without and with Shift. */
  const SmallStep: int := 10
  const LargeStep: int := 50

  function Min(a: int, b: int): int { if a <= b then a else b }
  function Max(a: int, b: int): int { if a >= b then a else b }
  function Abs(a: int): nat { if a >= 0 then a else -a }

  /**
    `Math.max(200, Math.min(total - 200, desired))`: at least 200 always,
    at most `total - 200` whenever that range is not empty, and the
    requested width itself whenever it is already in range.
  */
  function ClampWidth(desired: int, total: int): (w: int)
    ensures w >= MinPanelWidth
    ensures total >= 2 * MinPanelWidth ==> w <= total - MinPanelWidth
    ensures MinPanelWidth <= desired <= total - MinPanelWidth ==> w == desired
    ensures total < 2 * MinPanelWidth ==> w == MinPanelWidth
  {
    Max(MinPanelWidth, Min(total - MinPanelWidth, desired))
  }

  /** The clamped width is the point of the allowed range nearest the requested width. */
  lemma ClampIsNearest(desired: int, total: int, v: int)
    requires total >= 2 * MinPanelWidth
    requires MinPanelWidth <= v <= total - MinPanelWidth
    ensures Abs(ClampWidth(desired, total) - desired) <= Abs(v - desired)
  {
  }

  /** Dragging further right never yields a narrower editor panel. */
  lemma ClampMonotone(d1: int, d2: int, total: int)
    requires d1 <= d2
    ensures ClampWidth(d1, total) <= ClampWidth(d2, total)
  {
  }

  /** The divider drag in progress: where it started and the container width seen then. */
  datatype Drag = Drag(dragging: bool, startX: int, startWidth: int, cachedWidth: int)

  /** `startDrag`: remembers the pointer position and the editor panel's width. */
  function StartDrag(d: Drag, clientX: int, editorWidth: int): (d': Drag)
    ensures d'.dragging && d'.startX == clientX && d'.startWidth == editorWidth
    ensures d'.cachedWidth == d.cachedWidth
  {
    d.(dragging := true, startX := clientX, startWidth := editorWidth)
  }

  /** `endDrag`: later pointer moves no longer resize. */
  function EndDrag(d: Drag): (d': Drag)
    ensures !d'.dragging
    ensures d'.startX == d.startX && d'.startWidth == d.startWidth && d'.cachedWidth == d.cachedWidth
  {
    d.(dragging := false)
  }

  /**
    `updateDrag` followed by `performLayoutUpdate`: no width while no drag is
    in progress; otherwise the starting width moved by the pointer's travel,
    clamped into [200, cachedWidth - 200].
  */
  function DragWidth(d: Drag, clientX: int): (w: Option<int>)
    ensures w.Some? <==> d.dragging
    ensures w.Some? ==> w.value >= MinPanelWidth
    ensures w.Some? && d.cachedWidth >= 2 * MinPanelWidth ==> w.value <= d.cachedWidth - MinPanelWidth
    ensures w.Some? && MinPanelWidth <= d.startWidth + (clientX - d.startX) <= d.cachedWidth - MinPanelWidth ==>
      w.value == d.startWidth + (clientX - d.startX)
    ensures d.dragging ==> w == Some(ClampWidth(d.startWidth + (clientX - d.startX), d.cachedWidth))
  {
    if !d.dragging then None
    else Some(ClampWidth(d.startWidth + (clientX - d.startX), d.cachedWidth))
  }

  /**
    A pointer move that reaches `performLayoutUpdate`: the width it sets,
    and the drag state afterwards, whose cached container width has been
    re-read as `containerWidth`. Outside a drag (`updateDrag` returns at
    once) nothing changes.
  */
  function PointerMove(d: Drag, clientX: int, containerWidth: int): (r: (Drag, Option<int>))
    ensures r.1 == DragWidth(d, clientX)
    ensures r.0.dragging == d.dragging && r.0.startX == d.startX && r.0.startWidth == d.startWidth
    ensures r.0.cachedWidth == (if d.dragging then containerWidth else d.cachedWidth)
  {
    if !d.dragging then (d, None)
    else (d.(cachedWidth := containerWidth), DragWidth(d, clientX))
  }

  /** The drag state after a sequence of pointer moves, each a pointer position and the container width read after it. */
  function PointerMoves(d: Drag, moves: seq<(int, int)>): Drag
    decreases |moves|
  {
    if |moves| == 0 then d else PointerMoves(PointerMove(d, moves[0].0, moves[0].1).0, moves[1..])
  }

  /**
    However many moves came before, a move during a drag sets the width the
    pointer's travel from where the drag started asks for, clamped against
    the container width read after the previous move.
  */
  lemma {:induction false} MovesMeasureFromStart(d: Drag, moves: seq<(int, int)>, clientX: int)
    requires d.dragging && |moves| > 0
    ensures var after := PointerMoves(d, moves);
      DragWidth(after, clientX)
        == Some(ClampWidth(d.startWidth + (clientX - d.startX), moves[|moves| - 1].1))
    decreases |moves|
  {
    var next := PointerMove(d, moves[0].0, moves[0].1).0;
    if |moves| > 1 {
      MovesMeasureFromStart(next, moves[1..], clientX);
    }
  }

  /** After `endDrag`, pointer moves set no width and change nothing. */
  lemma NoResizeAfterEnd(d: Drag, clientX: int, containerWidth: int)
    ensures PointerMove(EndDrag(d), clientX, containerWidth) == (EndDrag(d), None)
  {
  }

  /**
    The `ResizeObserver` callback: whenever the container is resized, during
    a drag or between drags, the cache takes the observed width and nothing
    else changes.
  */
  function ContainerResized(d: Drag, width: int): (d': Drag)
    ensures d'.cachedWidth == width
    ensures d'.dragging == d.dragging && d'.startX == d.startX && d'.startWidth == d.startWidth
  {
    d.(cachedWidth := width)
  }

  /**
    A container resize between two drags decides the clamp of the next
    drag's first move: it is measured against the observed width, not the
    width the previous drag last read.
  */
  lemma ResizeBetweenDrags(d: Drag, width: int, startX: int, editorWidth: int, clientX: int)
    ensures DragWidth(StartDrag(ContainerResized(EndDrag(d), width), startX, editorWidth), clientX)
      == Some(ClampWidth(editorWidth + (clientX - startX), width))
  {
  }

  /** The parts of a `keydown` event the resize shortcut reads. */
  datatype KeyEvent = KeyEvent(key: string, ctrlKey: bool, metaKey: bool, shiftKey: bool)

  /**
    The width change a key press asks for: none unless Ctrl or Cmd is held
    and the key is ArrowLeft or ArrowRight; 50 pixels with Shift, 10
    without; narrower for ArrowLeft, wider for ArrowRight.
  */
  function ResizeDelta(e: KeyEvent): (delta: Option<int>)
    ensures delta.Some? <==> (e.ctrlKey || e.metaKey) && (e.key == "ArrowLeft" || e.key == "ArrowRight")
    ensures delta.Some? && e.key == "ArrowLeft" ==> delta.value < 0
    ensures delta.Some? && e.key == "ArrowRight" ==> delta.value > 0
    ensures delta.Some? ==> Abs(delta.value) == (if e.shiftKey then LargeStep else SmallStep)
  {
    if !e.ctrlKey && !e.metaKey then None
    else
      var step := if e.shiftKey then LargeStep else SmallStep;
      match e.key
      case "ArrowLeft" => Some(-step)
      case "ArrowRight" => Some(step)
      case _ => None
  }

  /**
    `handlePanelResizeKeyboard`: the new editor panel width for a key press,
    clamped into [200, innerWidth - 200]; none for keys it ignores.
  */
  function KeyboardResize(e: KeyEvent, currentWidth: int, innerWidth: int): (w: Option<int>)
    ensures w.Some? <==> ResizeDelta(e).Some?
    ensures w.Some? ==> w.value >= MinPanelWidth
    ensures w.Some? && innerWidth >= 2 * MinPanelWidth ==> w.value <= innerWidth - MinPanelWidth
    ensures w.Some? ==> w.value == ClampWidth(currentWidth + ResizeDelta(e).value, innerWidth)
    ensures w.Some? && MinPanelWidth <= currentWidth + ResizeDelta(e).value <= innerWidth - MinPanelWidth ==>
      w.value == currentWidth + ResizeDelta(e).value
  {
    match ResizeDelta(e)
    case None => None
    case Some(delta) => Some(ClampWidth(currentWidth + delta, innerWidth))
  }

  /**
    From a width already in range, ArrowLeft never widens and ArrowRight
    never narrows the editor panel, and neither moves it by more than one step.
  */
  lemma KeyboardResizeDirection(e: KeyEvent, currentWidth: int, innerWidth: int)
    requires MinPanelWidth <= currentWidth <= innerWidth - MinPanelWidth
    requires KeyboardResize(e, currentWidth, innerWidth).Some?
    ensures var w := KeyboardResize(e, currentWidth, innerWidth).value;
      && (e.key == "ArrowLeft" ==> w <= currentWidth)
      && (e.key == "ArrowRight" ==> w >= currentWidth)
      && Abs(w - currentWidth) <= (if e.shiftKey then LargeStep else SmallStep)
  {
  }
}

=== FILE: strings.dfy ===
/**
  The JavaScript string primitives the editor relies on, over UTF-16 code
  units: `split('\n')` and its inverse `join('\n')`, `trim()` with the
  whitespace set of `\s`, and `${n}`, the decimal numeral of a count.
*/
module Strings {

  /** One UTF-16 code unit: the element of a JavaScript string. */
  newtype CodeUnit = u: int | 0 <= u < 0x1_0000

  /** A JavaScript string, indexed the way `length`, `substring` and `selectionStart` index it. */
  type Text = seq<CodeUnit>

  /** The separator of `split('\n')`. */
  const LineFeed: CodeUnit := 0x0A

  /** The code units of a literal written with characters of the Basic Multilingual Plane. */
  function Units(s: string): (t: Text)
    requires forall i :: 0 <= i < |s| ==> s[i] as int < 0x1_0000
    ensures |t| == |s|
    ensures forall i :: 0 <= i < |s| ==> t[i] as int == s[i] as int
  {
    seq(|s|, i requires 0 <= i < |s| => s[i] as int as CodeUnit)
  }

  // ---------------------------------------------------------------------------
  // Lines
  // ---------------------------------------------------------------------------

  /** The number of line feeds in `t`. */
  function LineFeeds(t: Text): nat
  {
    if |t| == 0 then 0 else (if t[0] == LineFeed then 1 else 0) + LineFeeds(t[1..])
  }

  lemma {:induction false} LineFeedsAppend(a: Text, b: Text)
    ensures LineFeeds(a + b) == LineFeeds(a) + LineFeeds(b)
    decreases |a|
  {
    if |a| == 0 {
      assert a + b == b;
    } else {
      assert (a + b)[1..] == a[1..] + b;
      LineFeedsAppend(a[1..], b);
    }
  }

  lemma {:induction false} LineFeedsZero(t: Text)
    ensures LineFeeds(t) == 0 <==> LineFeed !in t
    decreases |t|
  {
    if |t| > 0 {
      LineFeedsZero(t[1..]);
      assert t == [t[0]] + t[1..];
    }
  }

  /**
    `t.split('\n')`: the pieces between consecutive line feeds, in order.
    There is always one more piece than there are line feeds, and no piece
    contains a line feed.
  */
  function Split(t: Text): (pieces: seq<Text>)
    ensures |pieces| == LineFeeds(t) + 1
    ensures forall k :: 0 <= k < |pieces| ==> LineFeed !in pieces[k]
    decreases |t|
  {
    if |t| == 0 then [[]]
    else if t[0] == LineFeed then [[]] + Split(t[1..])
    else
      var rest := Split(t[1..]);
      [[t[0]] + rest[0]] + rest[1..]
  }

  /** `pieces.join('\n')`. */
  function Join(pieces: seq<Text>): Text
    requires |pieces| >= 1
  {
    if |pieces| == 1 then pieces[0] else pieces[0] + [LineFeed] + Join(pieces[1..])
  }

  /** The last piece of `t.split('\n')`, the one `pop()` returns. */
  function LastLine(t: Text): Text
  {
    Split(t)[|Split(t)| - 1]
  }

  /** Joining the pieces of a split gives back the text. */
  lemma {:induction false} JoinSplit(t: Text)
    ensures Join(Split(t)) == t
    decreases |t|
  {
    if |t| == 0 {
    } else if t[0] == LineFeed {
      JoinSplit(t[1..]);
      assert t == [LineFeed] + t[1..];
    } else {
      var rest := Split(t[1..]);
      JoinSplit(t[1..]);
      assert ([[t[0]] + rest[0]] + rest[1..])[1..] == rest[1..];
      if |rest| == 1 {
        assert t == [t[0]] + rest[0];
      } else {
        assert Join(rest) == rest[0] + [LineFeed] + Join(rest[1..]);
        assert t == [t[0]] + t[1..];
      }
    }
  }

  /** A text without line feeds splits into itself alone. */
  lemma {:induction false} SplitSingle(t: Text)
    requires LineFeed !in t
    ensures Split(t) == [t]
  {
    LineFeedsZero(t);
    JoinSplit(t);
  }

  /** A line feed after a line-feed-free prefix ends exactly the first piece. */
  lemma {:induction false} SplitAfterFirstLine(x: Text, y: Text)
    requires LineFeed !in x
    ensures Split(x + [LineFeed] + y) == [x] + Split(y)
    decreases |x|
  {
    if |x| == 0 {
      assert x + [LineFeed] + y == [LineFeed] + y;
      assert ([LineFeed] + y)[1..] == y;
    } else {
      var t := x + [LineFeed] + y;
      assert t[0] == x[0];
      assert t[1..] == x[1..] + [LineFeed] + y;
      SplitAfterFirstLine(x[1..], y);
      assert x == [x[0]] + x[1..];
    }
  }

  /** Splitting a join of line-feed-free pieces gives back the pieces. */
  lemma {:induction false} SplitJoin(pieces: seq<Text>)
    requires |pieces| >= 1
    requires forall k :: 0 <= k < |pieces| ==> LineFeed !in pieces[k]
    ensures Split(Join(pieces)) == pieces
    decreases |pieces|
  {
    if |pieces| == 1 {
      SplitSingle(pieces[0]);
    } else {
      SplitJoin(pieces[1..]);
      SplitAfterFirstLine(pieces[0], Join(pieces[1..]));
      assert pieces == [pieces[0]] + pieces[1..];
    }
  }

  /** The pieces after one more unit: a line feed opens an empty piece, anything else extends the last one. */
  function AppendUnit(pieces: seq<Text>, c: CodeUnit): seq<Text>
    requires |pieces| >= 1
  {
    if c == LineFeed then pieces + [[]]
    else pieces[..|pieces| - 1] + [pieces[|pieces| - 1] + [c]]
  }

  /** Prepending a unit other than a line feed to a text extends its first piece. */
  function PrependUnit(u: CodeUnit, pieces: seq<Text>): seq<Text>
    requires |pieces| >= 1
  {
    [[u] + pieces[0]] + pieces[1..]
  }

  lemma AppendUnitAfterEmpty(pieces: seq<Text>, c: CodeUnit)
    requires |pieces| >= 1
    ensures AppendUnit([[]] + pieces, c) == [[]] + AppendUnit(pieces, c)
  {
    var ps := [[]] + pieces;
    if c != LineFeed {
      assert ps[..|ps| - 1] == [[]] + pieces[..|pieces| - 1];
    }
  }

  lemma AppendUnitAfterPrepend(u: CodeUnit, pieces: seq<Text>, c: CodeUnit)
    requires |pieces| >= 1
    ensures AppendUnit(PrependUnit(u, pieces), c) == PrependUnit(u, AppendUnit(pieces, c))
  {
    var ps := PrependUnit(u, pieces);
    if c != LineFeed {
      if |pieces| == 1 {
        assert [u] + (pieces[0] + [c]) == [u] + pieces[0] + [c];
      } else {
        assert ps[..|ps| - 1] == [[u] + pieces[0]] + pieces[1..|pieces| - 1];
        assert AppendUnit(pieces, c)[1..] == pieces[1..|pieces| - 1] + [pieces[|pieces| - 1] + [c]];
      }
    }
  }

  /**
    How one more code unit changes a split: a line feed opens a new empty
    last piece, anything else extends the last piece.
  */
  lemma {:induction false} SplitSnoc(a: Text, c: CodeUnit)
    ensures Split(a + [c]) == AppendUnit(Split(a), c)
    decreases |a|
  {
    if |a| == 0 {
      assert a + [c] == [c];
      assert [c][1..] == [];
      assert Split([c][1..]) == [[]];
      if c != LineFeed {
        assert [c] + [] == [c];
      }
    } else {
      assert (a + [c])[0] == a[0];
      assert (a + [c])[1..] == a[1..] + [c];
      SplitSnoc(a[1..], c);
      if a[0] == LineFeed {
        AppendUnitAfterEmpty(Split(a[1..]), c);
      } else {
        AppendUnitAfterPrepend(a[0], Split(a[1..]), c);
      }
    }
  }

  /**
    The last piece of a split is the tail of the text after its last line
    feed, or the whole text when there is none.
  */
  lemma {:induction false} LastLineIsTail(t: Text)
    ensures |LastLine(t)| <= |t|
    ensures LastLine(t) == t[|t| - |LastLine(t)|..]
    ensures |LastLine(t)| == |t| || t[|t| - |LastLine(t)| - 1] == LineFeed
    decreases |t|
  {
    if |t| > 0 {
      var a := t[..|t| - 1];
      var c := t[|t| - 1];
      assert t == a + [c];
      SplitSnoc(a, c);
      LastLineIsTail(a);
      var l := LastLine(a);
      if c == LineFeed {
        assert LastLine(t) == [];
      } else {
        assert LastLine(t) == l + [c];
        assert t[|t| - |l| - 1..] == a[|a| - |l|..] + [c];
      }
    }
  }

  // ---------------------------------------------------------------------------
  // Whitespace and trim
  // ---------------------------------------------------------------------------

  /**
    The code units matched by `\s` and stripped by `trim()`: ECMAScript
    WhiteSpace (tab, vertical tab, form feed, space, no-break space, byte
    order mark and the space separators U+1680, U+2000..U+200A, U+202F,
    U+205F, U+3000) and LineTerminator (line feed, carriage return, U+2028,
    U+2029).
  */
  predicate IsWhiteSpace(u: CodeUnit)
  {
    || u == 0x09 || u == 0x0A || u == 0x0B || u == 0x0C || u == 0x0D
    || u == 0x20 || u == 0xA0 || u == 0x1680 || 0x2000 <= u <= 0x200A
    || u == 0x2028 || u == 0x2029 || u == 0x202F || u == 0x205F
    || u == 0x3000 || u == 0xFEFF
  }

  /** Neither end of `t` is whitespace. */
  predicate IsTrimmed(t: Text)
  {
    |t| == 0 || (!IsWhiteSpace(t[0]) && !IsWhiteSpace(t[|t| - 1]))
  }

  /** Every unit of `t` from position `i` up to position `j` is whitespace. */
  ghost predicate WhiteSpaceBetween(t: Text, i: int, j: int)
  {
    forall k :: i <= k < j && 0 <= k < |t| ==> IsWhiteSpace(t[k])
  }

  /** `r` is `t` with whitespace, and only whitespace, removed from both ends. */
  ghost predicate IsTrimOf(r: Text, t: Text)
  {
    && IsTrimmed(r)
    && exists lo, hi :: 0 <= lo <= hi <= |t| && r == t[lo..hi] && WhiteSpaceBetween(t, 0, lo) && WhiteSpaceBetween(t, hi, |t|)
  }

  /** `t.trimStart()`. */
  function TrimStart(t: Text): (r: Text)
    ensures |r| <= |t| && r == t[|t| - |r|..]
    ensures WhiteSpaceBetween(t, 0, |t| - |r|)
    ensures |r| == 0 || !IsWhiteSpace(r[0])
    decreases |t|
  {
    if |t| > 0 && IsWhiteSpace(t[0]) then TrimStart(t[1..]) else t
  }

  /** `t.trimEnd()`. */
  function TrimEnd(t: Text): (r: Text)
    ensures |r| <= |t| && r == t[..|r|]
    ensures WhiteSpaceBetween(t, |r|, |t|)
    ensures |r| == 0 || !IsWhiteSpace(r[|r| - 1])
    decreases |t|
  {
    if |t| > 0 && IsWhiteSpace(t[|t| - 1]) then TrimEnd(t[..|t| - 1]) else t
  }

  /** What trimEnd strips from the tail of `t[lo..]` is whitespace of `t`. */
  lemma TailWhiteSpace(t: Text, lo: nat, s: Text, n: nat)
    requires lo <= |t| && s == t[lo..] && n <= |s|
    requires WhiteSpaceBetween(s, n, |s|)
    ensures WhiteSpaceBetween(t, lo + n, |t|)
  {
    forall k | lo + n <= k < |t|
      ensures IsWhiteSpace(t[k])
    {
      assert t[k] == s[k - lo];
    }
  }

  /** Trimming the start and then the end removes whitespace, and only whitespace, from both ends. */
  lemma TrimBothEnds(t: Text)
    ensures IsTrimOf(TrimEnd(TrimStart(t)), t)
    ensures IsTrimmed(t) ==> TrimEnd(TrimStart(t)) == t
  {
    var s := TrimStart(t);
    var r := TrimEnd(s);
    var lo := |t| - |s|;
    TailWhiteSpace(t, lo, s, |r|);
    assert r == t[lo..lo + |r|];
  }

  /** `t.trim()`: whitespace removed from both ends, and nothing else. */
  function Trim(t: Text): (r: Text)
    ensures IsTrimOf(r, t)
    ensures IsTrimmed(t) ==> r == t
  {
    TrimBothEnds(t);
    TrimEnd(TrimStart(t))
  }

  /** Whatever holds of every unit of a text holds of every unit of its trim. */
  lemma TrimKeeps(t: Text, p: CodeUnit -> bool)
    requires forall k :: 0 <= k < |t| ==> p(t[k])
    ensures forall k :: 0 <= k < |Trim(t)| ==> p(Trim(t)[k])
  {
    var s := TrimStart(t);
    var r := TrimEnd(s);
    var lo := |t| - |s|;
    forall k | 0 <= k < |r|
      ensures p(r[k])
    {
      assert r[k] == t[lo + k];
    }
  }

  // ---------------------------------------------------------------------------
  // Decimal numerals
  // ---------------------------------------------------------------------------

  predicate IsDigit(u: CodeUnit)
  {
    0x30 <= u <= 0x39
  }

  /** `${n}` for a non-negative integer: its decimal numeral, without leading zeros. */
  function Decimal(n: nat): (t: Text)
    ensures |t| >= 1
    ensures forall k :: 0 <= k < |t| ==> IsDigit(t[k])
    ensures t[0] == 0x30 ==> n == 0
    ensures |t| > 1 ==> t[0] != 0x30
    decreases n
  {
    if n < 10 then [(0x30 + n) as CodeUnit]
    else Decimal(n / 10) + [(0x30 + n % 10) as CodeUnit]
  }

  /** The number a string of decimal digits denotes. */
  function DigitsValue(t: Text): nat
    requires forall k :: 0 <= k < |t| ==> IsDigit(t[k])
  {
    if |t| == 0 then 0
    else
      assert IsDigit(t[|t| - 1]);
      10 * DigitsValue(t[..|t| - 1]) + (t[|t| - 1] as int - 0x30)
  }

  /** Reading back a numeral gives the number it was written from. */
  lemma {:induction false} DecimalRoundTrip(n: nat)
    ensures DigitsValue(Decimal(n)) == n
    decreases n
  {
    if n >= 10 {
      var d := Decimal(n);
      assert d[..|d| - 1] == Decimal(n / 10);
      DecimalRoundTrip(n / 10);
    }
  }
}

=== FILE: text_stats.dfy ===
/**
  What the editor recomputes on every render: the line-number gutter beside
  the editing surface and the status-bar statistics (word count, line count
  and the cursor's line and column).
*/
module TextStats {
  import opened Strings

  // ---------------------------------------------------------------------------
  // Line-number gutter
  // ---------------------------------------------------------------------------

  /** The numerals "1", "2", ..., of the first `n` lines. */
  function Numerals(n: nat): (ns: seq<Text>)
    ensures |ns| == n
  {
    seq(n, k requires 0 <= k < n => Decimal(k + 1))
  }

  /** Appending a line-feed-free run of units extends the last piece of a split. */
  lemma {:induction false} SplitExtendLast(g: Text, line: Text)
    requires LineFeed !in line
    ensures Split(g + line) == Split(g)[..|Split(g)| - 1] + [LastLine(g) + line]
    decreases |line|
  {
    if |line| == 0 {
      assert g + line == g;
      assert LastLine(g) + line == LastLine(g);
      assert Split(g) == Split(g)[..|Split(g)| - 1] + [LastLine(g)];
    } else {
      var init := line[..|line| - 1];
      var c := line[|line| - 1];
      assert line == init + [c];
      assert g + line == (g + init) + [c];
      SplitExtendLast(g, init);
      assert c in line;
      SplitSnoc(g + init, c);
      var before := Split(g)[..|Split(g)| - 1];
      var mid := Split(g + init);
      assert Split(g + line) == mid[..|mid| - 1] + [mid[|mid| - 1] + [c]];
      assert mid == before + [LastLine(g) + init];
      assert mid[..|mid| - 1] == before;
      assert mid[|mid| - 1] + [c] == LastLine(g) + line;
    }
  }

  lemma NumeralsSnoc(i: nat)
    requires i >= 1
    ensures Numerals(i - 1) + [Decimal(i)] == Numerals(i)
  {
  }

  /** One more gutter entry: the next numeral and its line feed. */
  lemma GutterStep(gutter: Text, i: nat)
    requires 1 <= i
    requires Split(gutter) == Numerals(i - 1) + [[]]
    ensures Split(gutter + Decimal(i) + [LineFeed]) == Numerals(i) + [[]]
  {
    var numeral := Decimal(i);
    assert LineFeed !in numeral by {
      assert forall k :: 0 <= k < |numeral| ==> IsDigit(numeral[k]);
    }
    SplitExtendLast(gutter, numeral);
    var ps := Split(gutter);
    assert ps[..|ps| - 1] == Numerals(i - 1);
    assert LastLine(gutter) == [];
    assert [] + numeral == numeral;
    assert Split(gutter + numeral) == Numerals(i - 1) + [numeral];
    SplitSnoc(gutter + numeral, LineFeed);
    NumeralsSnoc(i);
  }

  /**
    `updateLineNumbers`: the gutter holds, for every line of the content,
    that line's number followed by a line feed. Read back line by line, it
    is the numerals 1..n followed by the empty remainder after the last line
    feed, where n is the content's line count.
  */
  method LineNumbers(content: Text) returns (gutter: Text)
    ensures Split(gutter) == Numerals(LineFeeds(content) + 1) + [[]]
    ensures gutter == Join(Numerals(LineFeeds(content) + 1) + [[]])
    ensures |content| == 0 ==> gutter == [0x31, LineFeed]
  {
    var lineCount := |Split(content)|;
    gutter := [];
    var i := 1;
    while i <= lineCount
      invariant 1 <= i <= lineCount + 1
      invariant Split(gutter) == Numerals(i - 1) + [[]]
    {
      GutterStep(gutter, i);
      gutter := gutter + Decimal(i) + [LineFeed];
      i := i + 1;
    }
    JoinSplit(gutter);
    if |content| == 0 {
      assert Numerals(1) + [[]] == [[0x31], []];
    }
  }

  // ---------------------------------------------------------------------------
  // Word count
  // ---------------------------------------------------------------------------

  /** A code unit of `[一-龥]`: each such ideograph is one word. */
  predicate IsCjk(u: CodeUnit)
  {
    0x4E00 <= u <= 0x9FA5
  }

  /** A code unit of `[a-zA-Z]`. */
  predicate IsAsciiLetter(u: CodeUnit)
  {
    0x41 <= u <= 0x5A || 0x61 <= u <= 0x7A
  }

  /** A maximal run of ASCII letters begins at position `k` of `t`. */
  predicate RunStartsAt(t: Text, k: nat)
    requires k < |t|
  {
    IsAsciiLetter(t[k]) && (k == 0 || !IsAsciiLetter(t[k - 1]))
  }

  /** The number of ideographs in `t`. */
  function CjkCount(t: Text): nat
  {
    if |t| == 0 then 0 else CjkCount(t[..|t| - 1]) + (if IsCjk(t[|t| - 1]) then 1 else 0)
  }

  /** The number of positions of `t` at which a maximal ASCII letter run begins. */
  function LetterRuns(t: Text): nat
  {
    if |t| == 0 then 0 else LetterRuns(t[..|t| - 1]) + (if RunStartsAt(t, |t| - 1) then 1 else 0)
  }

  /** The words of `t` as the status bar counts them: ideographs plus letter runs. */
  function WordCount(t: Text): nat
  {
    CjkCount(t) + LetterRuns(t)
  }

  lemma CountsStep(t: Text, i: nat)
    requires i < |t|
    ensures CjkCount(t[..i + 1]) == CjkCount(t[..i]) + (if IsCjk(t[i]) then 1 else 0)
    ensures LetterRuns(t[..i + 1]) == LetterRuns(t[..i]) + (if RunStartsAt(t, i) then 1 else 0)
  {
    assert t[..i + 1][..i] == t[..i];
  }

  /**
    The word count of `updateStats`, computed as the source computes it: the
    number of matches of `/[一-龥]/g` plus the number of matches of
    the greedy `/[a-zA-Z]+/g`.
  */
  method CountWords(t: Text) returns (total: nat)
    ensures total == WordCount(t)
  {
    var chinese := 0;
    var i := 0;
    while i < |t|
      invariant 0 <= i <= |t|
      invariant chinese == CjkCount(t[..i])
    {
      CountsStep(t, i);
      if IsCjk(t[i]) {
        chinese := chinese + 1;
      }
      i := i + 1;
    }
    assert t[..|t|] == t;

    var english := 0;
    i := 0;
    while i < |t|
      invariant 0 <= i <= |t|
      invariant english == LetterRuns(t[..i])
      invariant 0 < i < |t| ==> !IsAsciiLetter(t[i - 1]) || !IsAsciiLetter(t[i])
    {
      CountsStep(t, i);
      if IsAsciiLetter(t[i]) {
        // one match: extend it over every following letter
        var j := i + 1;
        while j < |t| && IsAsciiLetter(t[j])
          invariant i < j <= |t|
          invariant english + 1 == LetterRuns(t[..j])
          invariant IsAsciiLetter(t[j - 1])
        {
          CountsStep(t, j);
          j := j + 1;
        }
        english := english + 1;
        i := j;
      } else {
        i := i + 1;
      }
    }
    total := chinese + english;
  }

  /** Every unit adds at most one word, so the count never exceeds the length. */
  lemma {:induction false} WordCountBounded(t: Text)
    ensures WordCount(t) <= |t|
    decreases |t|
  {
    if |t| > 0 {
      WordCountBounded(t[..|t| - 1]);
    }
  }

  /**
    What one more unit adds to the count: one for an ideograph, one for a
    letter that does not continue a letter run, nothing for anything else
    (digits, punctuation, whitespace, other scripts).
  */
  lemma WordCountSnoc(t: Text, u: CodeUnit)
    ensures WordCount(t + [u]) == WordCount(t) +
      (if IsCjk(u) || (IsAsciiLetter(u) && (|t| == 0 || !IsAsciiLetter(t[|t| - 1]))) then 1 else 0)
  {
    assert (t + [u])[..|t|] == t;
  }

  // ---------------------------------------------------------------------------
  // Line count and cursor
  // ---------------------------------------------------------------------------

  /** `text.split('\n').length`. */
  function LineCount(t: Text): (n: nat)
    ensures n == LineFeeds(t) + 1
  {
    |Split(t)|
  }

  /** A cursor position as the status bar shows it, both 1-based. */
  datatype Cursor = Cursor(line: nat, column: nat)

  /** `text.substring(0, pos)`: the units before `pos`, clamped to the text. */
  function Before(t: Text, pos: nat): Text
  {
    if pos <= |t| then t[..pos] else t
  }

  /**
    The cursor of `updateStats`, derived from `selectionStart`: the line is
    one more than the number of line feeds before the cursor, and the column
    is one more than the number of units between the last of those line
    feeds (or the start of the text) and the cursor.
  */
  function CursorAt(t: Text, selectionStart: nat): (c: Cursor)
    ensures c.line == LineFeeds(Before(t, selectionStart)) + 1
    ensures 1 <= c.line <= LineCount(t)
    ensures 1 <= c.column <= |Before(t, selectionStart)| + 1
    ensures var b := Before(t, selectionStart);
      && LineFeed !in b[|b| - (c.column - 1)..]
      && (c.column - 1 == |b| || b[|b| - c.column] == LineFeed)
  {
    var before := Before(t, selectionStart);
    var lines := Split(before);
    LastLineIsTail(before);
    assert t == before + t[|before|..];
    LineFeedsAppend(before, t[|before|..]);
    Cursor(|lines|, |lines[|lines| - 1]| + 1)
  }

  /** The figures the status bar shows. */
  datatype Stats = Stats(words: nat, lines: nat, cursor: Cursor)

  /** `updateStats`: word count, line count and cursor for the current content. */
  method UpdateStats(t: Text, selectionStart: nat) returns (s: Stats)
    ensures s.words == WordCount(t) && s.words <= |t|
    ensures s.lines == LineFeeds(t) + 1
    ensures s.cursor == CursorAt(t, selectionStart) && s.cursor.line <= s.lines
  {
    var words := CountWords(t);
    WordCountBounded(t);
    s := Stats(words, LineCount(t), CursorAt(t, selectionStart));
  }
}

=== FILE: theme.dfy ===
/** The colour themes: the saved theme at start-up, the toolbar's theme cycle and the display names. */
module Theme {
  import opened Common

  /** The themes in the order the toolbar button (and Ctrl/Cmd+D) cycles through them. */
  const Themes: seq<string> := ["light", "dark", "blue", "cyberpunk"]

  /** The theme used when none is saved, and the cycle's start. */
  const DefaultTheme: string := "light"

  /** The display name of a key that is not a theme. */
  const UnknownName: string := "未知"

  /** `themes.indexOf(theme)`: the first position holding `theme`, or -1 when there is none. */
  function IndexOf(themes: seq<string>, theme: string): (i: int)
    ensures -1 <= i < |themes|
    ensures i == -1 <==> theme !in themes
    ensures 0 <= i ==> themes[i] == theme && theme !in themes[..i]
  {
    if |themes| == 0 then -1
    else if themes[0] == theme then 0
    else
      var j := IndexOf(themes[1..], theme);
      assert themes == [themes[0]] + themes[1..];
      if j == -1 then -1
      else
        assert themes[..j + 1] == [themes[0]] + themes[1..][..j];
        j + 1
  }

  /**
    The theme the toggle button switches to: the cyclic successor of the
    current theme, and the first theme for a key that is not a theme
    (`indexOf` gives -1, and (-1 + 1) % 4 is 0).
  */
  function NextTheme(current: string): (next: string)
    ensures next in Themes
    ensures current !in Themes ==> next == DefaultTheme
    ensures current == "light" ==> next == "dark"
    ensures current == "dark" ==> next == "blue"
    ensures current == "blue" ==> next == "cyberpunk"
    ensures current == "cyberpunk" ==> next == "light"
  {
    Themes[(IndexOf(Themes, current) + 1) % |Themes|]
  }

  /** Four presses of the toggle return to a theme; fewer never do. */
  lemma ThemeCycle(t: string)
    requires t in Themes
    ensures NextTheme(t) != t
    ensures NextTheme(NextTheme(t)) != t
    ensures NextTheme(NextTheme(NextTheme(t))) != t
    ensures NextTheme(NextTheme(NextTheme(NextTheme(t)))) == t
  {
  }

  /** From an unknown key the toggle enters the cycle at its start. */
  lemma UnknownThemeEntersCycle(t: string)
    requires t !in Themes
    ensures NextTheme(t) == DefaultTheme
    ensures NextTheme(NextTheme(t)) == Themes[1]
  {
  }

  /** `getThemeName`: the display name of a theme key, `未知` for any other key. */
  function ThemeName(theme: string): (name: string)
    ensures name == UnknownName <==> theme !in Themes
    ensures theme in Themes ==> |name| > 0
  {
    match theme
    case "light" => "浅色"
    case "dark" => "深色"
    case "blue" => "蓝色"
    case "cyberpunk" => "赛博朋克"
    case _ => UnknownName
  }

  /** Different themes have different display names. */
  lemma ThemeNamesDistinct(a: string, b: string)
    requires a in Themes && b in Themes && a != b
    ensures ThemeName(a) != ThemeName(b)
  {
  }

  /** `initializeTheme`: the saved theme, or `light` when none is saved or the saved value is empty. */
  function InitialTheme(saved: Option<string>): (theme: string)
    ensures theme != ""
    ensures saved.Some? && saved.value != "" ==> theme == saved.value
    ensures saved.None? || saved.value == "" ==> theme == DefaultTheme
  {
    match saved
    case Some(s) => if s != "" then s else DefaultTheme
    case None => DefaultTheme
  }
}
